=== FILE: README.md ===
# Log4netTextFormatter, modelled in Dafny

Serilog.Sinks.Udp sends log events over UDP to log collectors. Its
`Log4netTextFormatter` writes each Serilog log event as one `<event>` element
in the log4net-events-1.2 XML format
(namespace `http://logging.apache.org/log4net/schemas/log4net-events-1.2/`).
This project models that formatter as a pure function from an event to an
abstract XML tree. It then proves, for every event, what the formatter's test
suite checks on one fixture event.

The formatter's own implementation file is not part of this model. Its
behaviour is taken from its test suite (`test/Serilog.Sinks.Udp.Tests/Sinks/Udp/TextFormatters/Log4netTextFormatterTest.cs`). Where the tests are silent,
the model follows the documented shape of the log4net event element. Each
such choice is marked "modelling choice" below.

## Layout

- `wrappers.dfy` (`Wrappers`): `Option`.
- `xml.dfy` (`Xml`): the XML tree, made of expanded names (`QName`),
  elements with an attribute map and ordered children, and text nodes. It also
  has the LINQ to XML queries the tests use: `Attribute`, `Child` (which is
  `XContainer.Element`), `Descend` (a chain of `Child` steps) and
  `Value` (which is `XElement.Value`, the concatenated descendant text).
- `log_events.dfy` (`LogEvents`): the log event. It has a `Level`, an
  opaque rendered timestamp, the rendered message, an optional rendered
  exception, and its properties. Properties are an ordered list of name/value
  pairs, because the `data` children of the output are ordered. Modelling
  choice: the list is in insertion order. .NET leaves the enumeration order of
  a `Dictionary` undefined; insertion order is what its implementation gives
  when entries are never removed. Also here is
  `AddOrUpdateProperty`, which every test uses to set up its event. It
  overwrites an existing entry in place or appends a new one, the way a
  dictionary indexer does.
- `log4net_formatter.dfy` (`Log4netFormatter`): `Format`, the level-name
  table `LevelName`, and the property routing:
  - `SourceContext` goes to the root `logger` and to `locationInfo/@class`.
  - `ThreadId` goes to `thread`.
  - `EnvironmentUserName` goes to `username`.
  - `ProcessName` goes to `domain`.
  - `Method` goes to `locationInfo/@method`.
  - Every other property, `MachineName` included, becomes a `data` child of
    `properties`.
- `format_contract.dfy` (`FormatContract`): one lemma per test, stated for
  all events.
- `log4net_reader.dfy` (`Log4netReader`): a reader for the element, as a
  log4net collector would use it. It is the formatter's partner: reading a
  formatted event returns exactly the record the event should produce.

## Model

| member | source | states |
|---|---|---|
| FormatContract.Logger | test/Serilog.Sinks.Udp.Tests/Sinks/Udp/TextFormatters/Log4netTextFormatterTest.cs:24-36 | For every event, after `SourceContext` is set to v, the root `logger` attribute is v |
| FormatContract.Timestamp | test/Serilog.Sinks.Udp.Tests/Sinks/Udp/TextFormatters/Log4netTextFormatterTest.cs:38-47 | Every formatted event has a root `timestamp` attribute, and it holds the event's rendered timestamp |
| FormatContract.LevelAttribute | test/Serilog.Sinks.Udp.Tests/Sinks/Udp/TextFormatters/Log4netTextFormatterTest.cs:49-63 | The root `level` attribute is TRACE, DEBUG, INFO, WARN, ERROR or FATAL for Verbose, Debug, Information, Warning, Error or Fatal, respectively |
| Log4netReader.LevelNameRoundTrip | test/Serilog.Sinks.Udp.Tests/Sinks/Udp/TextFormatters/Log4netTextFormatterTest.cs:49-63 | Each level's log4net name parses back to that level, so no two levels share a name |
| Log4netReader.ParseLevelOnlyNames | test/Serilog.Sinks.Udp.Tests/Sinks/Udp/TextFormatters/Log4netTextFormatterTest.cs:49-63 | A string parses to level l if and only if it is l's log4net name: no other string is a level name |
| FormatContract.Thread | test/Serilog.Sinks.Udp.Tests/Sinks/Udp/TextFormatters/Log4netTextFormatterTest.cs:65-77 | For every event, after `ThreadId` is set to v, the root `thread` attribute is v |
| FormatContract.Username | test/Serilog.Sinks.Udp.Tests/Sinks/Udp/TextFormatters/Log4netTextFormatterTest.cs:79-91 | For every event, after `EnvironmentUserName` is set to v, the root `username` attribute is v |
| FormatContract.Domain | test/Serilog.Sinks.Udp.Tests/Sinks/Udp/TextFormatters/Log4netTextFormatterTest.cs:93-105 | For every event, after `ProcessName` is set to v, the root `domain` attribute is v |
| FormatContract.Class | test/Serilog.Sinks.Udp.Tests/Sinks/Udp/TextFormatters/Log4netTextFormatterTest.cs:107-119 | For every event, after `SourceContext` is set to v, both the root `logger` and the `class` of the `locationInfo` child are v |
| FormatContract.Method | test/Serilog.Sinks.Udp.Tests/Sinks/Udp/TextFormatters/Log4netTextFormatterTest.cs:121-133 | For every event, after `Method` is set to v, the `locationInfo` child exists and its `method` attribute is v |
| FormatContract.MachineNameFirstData | test/Serilog.Sinks.Udp.Tests/Sinks/Udp/TextFormatters/Log4netTextFormatterTest.cs:135-147 | For an event whose bag holds no property other than an earlier `MachineName`, after `MachineName` is set to v, the first `data` child of `properties` has `value` v |
| FormatContract.MachineNameInBag | test/Serilog.Sinks.Udp.Tests/Sinks/Udp/TextFormatters/Log4netTextFormatterTest.cs:135-147 | Modelling choice: `MachineName` gets no root attribute of its own, since the root attributes stay the fixed six of FormatContract.RootShape. Its `data` entry is in the bag, and every `data` child named `MachineName` carries v |
| FormatContract.BagIsExactlyTheRest | test/Serilog.Sinks.Udp.Tests/Sinks/Udp/TextFormatters/Log4netTextFormatterTest.cs:135-147 | Modelling choice: `properties` holds a `data` child for exactly the properties without a dedicated place, and for no dedicated one |
| FormatContract.BagOfConcat | test/Serilog.Sinks.Udp.Tests/Sinks/Udp/TextFormatters/Log4netTextFormatterTest.cs:135-147 | Modelling choice: the bag of a concatenation is the concatenation of the bags, so `data` children keep the event's property order |
| Log4netFormatter.BagMembership | test/Serilog.Sinks.Udp.Tests/Sinks/Udp/TextFormatters/Log4netTextFormatterTest.cs:135-147 | Modelling choice: a property is in the generic bag if and only if the event has it and its name has no dedicated place |
| FormatContract.Message | test/Serilog.Sinks.Udp.Tests/Sinks/Udp/TextFormatters/Log4netTextFormatterTest.cs:149-160 | The `message` child exists and its text is the event's rendered message |
| FormatContract.Exception | test/Serilog.Sinks.Udp.Tests/Sinks/Udp/TextFormatters/Log4netTextFormatterTest.cs:162-173 | An event with an exception has a `throwable` child, and its text is the rendered exception |
| FormatContract.NoExceptionNoThrowable | test/Serilog.Sinks.Udp.Tests/Sinks/Udp/TextFormatters/Log4netTextFormatterTest.cs:162-173 | Modelling choice: an event without an exception has no `throwable` child at all |
| FormatContract.RootShape | test/Serilog.Sinks.Udp.Tests/Sinks/Udp/TextFormatters/Log4netTextFormatterTest.cs:13 | Modelling choice: the root is called `event`, it always carries exactly the six root attributes, and it has 3 or 4 children. The tests pin down only the namespace, the one at line 13: the root and all its children are elements of it |
| FormatContract.AbsentPropertiesAreEmpty | test/Serilog.Sinks.Udp.Tests/Sinks/Udp/TextFormatters/Log4netTextFormatterTest.cs:28-35 | Modelling choice: a missing well-known property still yields its attribute, with an empty value |
| Log4netFormatter.RootChildren | test/Serilog.Sinks.Udp.Tests/Sinks/Udp/TextFormatters/Log4netTextFormatterTest.cs:118 | Modelling choice: `Element(...)` on the root always finds `locationInfo`, `properties` and `message`, and finds `throwable` exactly when there is an exception. The tests read these children but do not require them on every event, nor the absence of `throwable` |
| Log4netReader.ReadDataRoundTrip | test/Serilog.Sinks.Udp.Tests/Sinks/Udp/TextFormatters/Log4netTextFormatterTest.cs:146 | Reading the `data` children back gives the bag's name/value pairs, in order |
| Log4netReader.ReadFormat | test/Serilog.Sinks.Udp.Tests/Sinks/Udp/TextFormatters/Log4netTextFormatterTest.cs:175-178 | Reading a formatted event's element returns its record: the level, timestamp, message, exception, every well-known field and the bag |
| Log4netReader.FormatDeterminedByRecord | test/Serilog.Sinks.Udp.Tests/Sinks/Udp/TextFormatters/Log4netTextFormatterTest.cs:175-178 | Two events format to the same element if and only if they have the same record, so the element loses nothing the record carries |
| LogEvents.LookupAfterSet | test/Serilog.Sinks.Udp.Tests/Sinks/Udp/TextFormatters/Log4netTextFormatterTest.cs:29 | After `AddOrUpdateProperty(name, v)`, looking up name finds v, whatever the event held before |
| LogEvents.LookupOtherAfterSet | test/Serilog.Sinks.Udp.Tests/Sinks/Udp/TextFormatters/Log4netTextFormatterTest.cs:29 | `AddOrUpdateProperty` leaves the lookup of every other name unchanged |
| LogEvents.SetKeepsUniqueNames | test/Serilog.Sinks.Udp.Tests/Sinks/Udp/TextFormatters/Log4netTextFormatterTest.cs:29 | `AddOrUpdateProperty` never creates a second property with the same name |
| Xml.FirstIndexNamed | test/Serilog.Sinks.Udp.Tests/Sinks/Udp/TextFormatters/Log4netTextFormatterTest.cs:118 | Finds the first child element with the given name, or reports that no child has that name |
| Xml.Child | test/Serilog.Sinks.Udp.Tests/Sinks/Udp/TextFormatters/Log4netTextFormatterTest.cs:118 | The child `Element(name)` returns is the FIRST child of the element with that name. No result means no child has that name |
| Xml.ValueOfTextElement | test/Serilog.Sinks.Udp.Tests/Sinks/Udp/TextFormatters/Log4netTextFormatterTest.cs:159 | The `Value` of an element whose content is written from a string s is s, the empty string included |
| Xml.ValueOfAllConcat | test/Serilog.Sinks.Udp.Tests/Sinks/Udp/TextFormatters/Log4netTextFormatterTest.cs:159 | The text of a run of siblings is the text of its parts, in order |
| Xml.Value | test/Serilog.Sinks.Udp.Tests/Sinks/Udp/TextFormatters/Log4netTextFormatterTest.cs:159 | No ensures of its own. It is `XElement.Value`, the concatenated text of all descendants; stated by Xml.ValueOfTextElement and Xml.ValueOfAllConcat |
| Xml.TextContent | test/Serilog.Sinks.Udp.Tests/Sinks/Udp/TextFormatters/Log4netTextFormatterTest.cs:153-159 | No ensures of its own. Writing a string gives one text node, or none for the empty string; read back by Xml.ValueOfTextElement |
| Xml.Attribute | test/Serilog.Sinks.Udp.Tests/Sinks/Udp/TextFormatters/Log4netTextFormatterTest.cs:35 | No ensures of its own. It is `XElement.Attribute(name).Value`: the attribute's value, or None when the element lacks it |
| Xml.Descend | test/Serilog.Sinks.Udp.Tests/Sinks/Udp/TextFormatters/Log4netTextFormatterTest.cs:146 | No ensures of its own. It is a chain of `Element(...)` steps; stated by FormatContract.MachineNameFirstData, FormatContract.Class and FormatContract.Method |
| Log4netFormatter.Format | test/Serilog.Sinks.Udp.Tests/Sinks/Udp/TextFormatters/Log4netTextFormatterTest.cs:32 | No ensures of its own. It is the formatter's `Format` call; its contract is the FormatContract lemmas and the round trip Log4netReader.ReadFormat |
| Log4netFormatter.LevelName | test/Serilog.Sinks.Udp.Tests/Sinks/Udp/TextFormatters/Log4netTextFormatterTest.cs:50-55 | No ensures of its own. It is the level table; stated by FormatContract.LevelAttribute and inverted by Log4netReader.ParseLevelOnlyNames |
| LogEvents.SetProperty | test/Serilog.Sinks.Udp.Tests/Sinks/Udp/TextFormatters/Log4netTextFormatterTest.cs:29 | No ensures of its own. It overwrites in place or appends. Positions are stated by LogEvents.SetKeepsOrder; lookups by LogEvents.LookupAfterSet and LogEvents.LookupOtherAfterSet; uniqueness by LogEvents.SetKeepsUniqueNames |
| LogEvents.SetKeepsOrder | test/Serilog.Sinks.Udp.Tests/Sinks/Udp/TextFormatters/Log4netTextFormatterTest.cs:29 | Setting a property keeps every other entry at its position. An existing entry of that name is overwritten where it stands; otherwise the list grows by one, with the new entry at the end |
| LogEvents.Lookup | test/Serilog.Sinks.Udp.Tests/Sinks/Udp/TextFormatters/Log4netTextFormatterTest.cs:29 | The dictionary lookup: it finds nothing if and only if no property has the name, and a value it finds belongs to a property of that name |
| Log4netFormatter.PropertyText | test/Serilog.Sinks.Udp.Tests/Sinks/Udp/TextFormatters/Log4netTextFormatterTest.cs:24-36 | No ensures of its own. Modelling choice: a well-known property's value, or the empty string when it is missing; stated by FormatContract.AbsentPropertiesAreEmpty and by the per-property lemmas such as FormatContract.Logger |
| Log4netFormatter.BagProperties | test/Serilog.Sinks.Udp.Tests/Sinks/Udp/TextFormatters/Log4netTextFormatterTest.cs:135-147 | Modelling choice, no ensures of its own: it routes every property without a dedicated place, `MachineName` included, to the generic bag; stated by Log4netFormatter.BagMembership, FormatContract.BagOfConcat and FormatContract.BagAfterAppend |
| FormatContract.BagAfterAppend | test/Serilog.Sinks.Udp.Tests/Sinks/Udp/TextFormatters/Log4netTextFormatterTest.cs:135-147 | Modelling choice: adding a property the event does not have yet appends it to the end of the bag, unless its name has a dedicated place |
| LogEvents.AddOrUpdateProperty | test/Serilog.Sinks.Udp.Tests/Sinks/Udp/TextFormatters/Log4netTextFormatterTest.cs:29 | No ensures of its own. It is `logEvent.AddOrUpdateProperty`, which applies SetProperty to the event's properties; stated by LogEvents.SetKeepsOrder, LogEvents.LookupAfterSet, LogEvents.LookupOtherAfterSet and LogEvents.SetKeepsUniqueNames |

## Left out

- XML text serialisation, escaping and parsing (`XmlWriter`, `XDocument.Parse`), and namespace prefixes. These belong to the XML library. The model's tree is the element as the formatter writes it, not the document the tests get back from parsing.
- FormatContract.Message: states the text of the written `message` element. The text the tests read after parsing can differ. Parsing turns CR LF into LF, and it drops a text node made only of whitespace, so a message such as "a\r\nb" or "   " reads back differently. Parsing is not modelled.
- FormatContract.Exception: the same parse-time text changes apply to the `throwable` text, and they are not modelled either.
- FormatContract.Timestamp: proves that the attribute is present and holds the event's rendered timestamp. It does not prove that `DateTime.TryParse` accepts it, because date formatting and parsing depend on culture and runtime and are not modelled.
- FormatContract.Exception: proves that the `throwable` text equals the rendered exception. It does not prove that the text is non-empty, because rendering an exception (type, message, stack trace) is runtime behaviour. The exception arrives as already-rendered text.
- FormatContract.MachineNameFirstData: requires that the starting event's bag holds nothing except, possibly, earlier `MachineName` entries. The test adds `MachineName` to its fixture event, which is assumed to have no other bag property. That fixture is not modelled, so this precondition stands in for it.
- Message-template rendering: the message arrives as already-rendered text.
- Structured (non-scalar) property values: every property value arrives as rendered scalar text.
- Writing to the `TextWriter`, the UDP sink and network transport: these are I/O.
- Writer failures propagating to the caller: there is no I/O in the model.
- The `name` attribute of the `MachineName` data entry: the test reads only its `value`. The model uses the property name, as for every bag entry.
- Levels outside the six: the level is a closed datatype.

=== FILE: format_contract.dfy ===
/**
  What the formatter promises, one lemma per case of its test suite, each
  stated for every event rather than for one fixture. A test that arranges
  its event with `AddOrUpdateProperty(K, v)` becomes a lemma about
  `Format(AddOrUpdateProperty(e, K, v))` for an arbitrary starting event `e`.
 */
module FormatContract {
  import opened Wrappers
  import opened Xml
  import opened LogEvents
  import opened Log4netFormatter

  /** Test `Logger`: the `SourceContext` property becomes the root `logger` attribute. */
  lemma Logger(e: Event, v: string)
    ensures Attribute(Format(AddOrUpdateProperty(e, SourceContext, v)), "logger") == Some(v)
  {
    LookupAfterSet(e.props, Property(SourceContext, v));
    RootAttributeValues(AddOrUpdateProperty(e, SourceContext, v));
  }

  /** Test `Timestamp`: every element carries the event's rendered timestamp. */
  lemma Timestamp(e: Event)
    ensures Attribute(Format(e), "timestamp") == Some(e.timestamp)
  {
    RootAttributeValues(e);
  }

  /** Test `Level`: the root `level` attribute is the log4net name of the event's level. */
  lemma LevelAttribute(e: Event)
    ensures e.level == Verbose ==> Attribute(Format(e), "level") == Some("TRACE")
    ensures e.level == Debug ==> Attribute(Format(e), "level") == Some("DEBUG")
    ensures e.level == Information ==> Attribute(Format(e), "level") == Some("INFO")
    ensures e.level == Warning ==> Attribute(Format(e), "level") == Some("WARN")
    ensures e.level == Error ==> Attribute(Format(e), "level") == Some("ERROR")
    ensures e.level == Fatal ==> Attribute(Format(e), "level") == Some("FATAL")
  {
    RootAttributeValues(e);
  }

  /** Test `Thead`: the `ThreadId` property becomes the root `thread` attribute. */
  lemma Thread(e: Event, v: string)
    ensures Attribute(Format(AddOrUpdateProperty(e, ThreadId, v)), "thread") == Some(v)
  {
    LookupAfterSet(e.props, Property(ThreadId, v));
    RootAttributeValues(AddOrUpdateProperty(e, ThreadId, v));
  }

  /** Test `Username`: the `EnvironmentUserName` property becomes the root `username` attribute. */
  lemma Username(e: Event, v: string)
    ensures Attribute(Format(AddOrUpdateProperty(e, EnvironmentUserName, v)), "username") == Some(v)
  {
    LookupAfterSet(e.props, Property(EnvironmentUserName, v));
    RootAttributeValues(AddOrUpdateProperty(e, EnvironmentUserName, v));
  }

  /** Test `Domain`: the `ProcessName` property becomes the root `domain` attribute. */
  lemma Domain(e: Event, v: string)
    ensures Attribute(Format(AddOrUpdateProperty(e, ProcessName, v)), "domain") == Some(v)
  {
    LookupAfterSet(e.props, Property(ProcessName, v));
    RootAttributeValues(AddOrUpdateProperty(e, ProcessName, v));
  }

  /** Test `Class`: `SourceContext` also becomes the `class` attribute of `locationInfo`. */
  lemma Class(e: Event, v: string)
    ensures Attribute(Format(AddOrUpdateProperty(e, SourceContext, v)), "logger") == Some(v)
    ensures Descend(Format(AddOrUpdateProperty(e, SourceContext, v)), [Ev("locationInfo")])
         .Some?
    ensures Attribute(Descend(Format(AddOrUpdateProperty(e, SourceContext, v)), [Ev("locationInfo")]).value, "class")
         == Some(v)
  {
    var e' := AddOrUpdateProperty(e, SourceContext, v);
    LookupAfterSet(e.props, Property(SourceContext, v));
    RootAttributeValues(e');
    RootChildren(e');
    LocationInfoValues(e');
    assert [Ev("locationInfo")][1..] == [];
  }

  /** Test `Method`: the `Method` property becomes the `method` attribute of `locationInfo`. */
  lemma Method(e: Event, v: string)
    ensures Descend(Format(AddOrUpdateProperty(e, MethodName, v)), [Ev("locationInfo")]).Some?
    ensures Attribute(Descend(Format(AddOrUpdateProperty(e, MethodName, v)), [Ev("locationInfo")]).value, "method")
         == Some(v)
  {
    var e' := AddOrUpdateProperty(e, MethodName, v);
    LookupAfterSet(e.props, Property(MethodName, v));
    RootChildren(e');
    LocationInfoValues(e');
    assert [Ev("locationInfo")][1..] == [];
  }

  /**
    Test `MachineName`: on an event whose generic bag holds nothing but
    (possibly) an earlier `MachineName`, the first `data` child of
    `properties` carries the newly set `MachineName` value.
   */
  lemma MachineNameFirstData(e: Event, v: string)
    requires forall q :: q in BagProperties(e.props) ==> q.name == MachineName
    ensures Descend(Format(AddOrUpdateProperty(e, MachineName, v)), [Ev("properties"), Ev("data")]).Some?
    ensures Attribute(Descend(Format(AddOrUpdateProperty(e, MachineName, v)), [Ev("properties"), Ev("data")]).value, "value")
         == Some(v)
  {
    var p := Property(MachineName, v);
    var e' := AddOrUpdateProperty(e, MachineName, v);
    BagAfterMachineName(e, v);
    RootChildren(e');
    var pe := PropertiesElement(e');
    assert pe.children[0] == DataElement(p);
    FirstIndexNamedIs(pe.children, Ev("data"), 0);
    assert Child(pe, Ev("data")) == Some(DataElement(p));
    var path := [Ev("properties"), Ev("data")];
    assert path[1..] == [Ev("data")] && path[1..][1..] == [];
    assert Descend(Format(e'), path) == Descend(pe, path[1..]) == Some(DataElement(p));
    DataAttributes(p);
  }

  /**
    When the bag holds nothing but `MachineName` entries, setting `MachineName`
    puts the new entry at the head of the bag: it either overwrites the first
    such entry in place or is appended to a bag that was empty.
   */
  lemma BagAfterMachineName(e: Event, v: string)
    requires forall q :: q in BagProperties(e.props) ==> q.name == MachineName
    ensures |BagProperties(AddOrUpdateProperty(e, MachineName, v).props)| > 0
    ensures BagProperties(AddOrUpdateProperty(e, MachineName, v).props)[0] == Property(MachineName, v)
  {
    var p := Property(MachineName, v);
    var ps := e.props;
    assert BagProperties([p]) == [p] by {
      assert [p][1..] == [];
    }
    match IndexOf(ps, MachineName)
    case None =>
      BagOfPrefixEmpty(ps, |ps|);
      assert ps[..|ps|] == ps;
      BagOfConcat(ps, [p]);
    case Some(i) =>
      var before, after := ps[..i], ps[i + 1..];
      BagOfPrefixEmpty(ps, i);
      assert ps[i := p] == before + ([p] + after);
      BagOfConcat(before, [p] + after);
      BagOfConcat([p], after);
  }

  /** A prefix without `MachineName` of a bag holding only `MachineName` entries contributes nothing. */
  lemma BagOfPrefixEmpty(ps: seq<Property>, i: nat)
    requires i <= |ps|
    requires forall q :: q in BagProperties(ps) ==> q.name == MachineName
    requires forall j :: 0 <= j < i ==> ps[j].name != MachineName
    ensures BagProperties(ps[..i]) == []
  {
    var before := ps[..i];
    assert ps == before + ps[i..];
    BagOfConcat(before, ps[i..]);
    BagMembership(before);
    if BagProperties(before) != [] {
      HeadIsMember(BagProperties(before));
      assert false;
    }
  }


  lemma HeadIsMember<T>(s: seq<T>)
    requires s != []
    ensures s[0] in s
  {
  }

  /**
    Adding a property the event does not have yet appends it to the end of
    the bag, unless its name has a dedicated place.
   */
  lemma BagAfterAppend(ps: seq<Property>, p: Property)
    requires IndexOf(ps, p.name).None?
    ensures BagProperties(SetProperty(ps, p)) == BagProperties(ps) + (if IsDedicated(p.name) then [] else [p])
  {
    BagOfConcat(ps, [p]);
    assert [p][1..] == [];
  }

  /**
    `MachineName` lands in the generic bag: the element gets no attribute of
    its own for it, and (on an event with one entry per name) the bag holds
    exactly one `data` child named `MachineName`, carrying its value.
   */
  lemma MachineNameInBag(e: Event, v: string)
    requires UniqueNames(e.props)
    ensures Format(AddOrUpdateProperty(e, MachineName, v)).attributes.Keys == RootAttributes
    ensures DataElement(Property(MachineName, v)) in PropertiesElement(AddOrUpdateProperty(e, MachineName, v)).children
    ensures forall c :: c in PropertiesElement(AddOrUpdateProperty(e, MachineName, v)).children ==>
              Attribute(c, "name") == Some(MachineName) ==> Attribute(c, "value") == Some(v)
  {
    var p := Property(MachineName, v);
    var e' := AddOrUpdateProperty(e, MachineName, v);
    RootAttributeValues(e');
    LookupAfterSet(e.props, p);
    SetKeepsUniqueNames(e.props, p);
    BagCarries(e', MachineName, v);
  }

  /**
    On an event with one entry per name, a property without a dedicated place
    has its `data` child, and every `data` child of that name carries its value.
   */
  lemma BagCarries(e: Event, name: string, v: string)
    requires UniqueNames(e.props)
    requires Lookup(e.props, name) == Some(v) && !IsDedicated(name)
    ensures DataElement(Property(name, v)) in PropertiesElement(e).children
    ensures forall c :: c in PropertiesElement(e).children ==>
              Attribute(c, "name") == Some(name) ==> Attribute(c, "value") == Some(v)
  {
    var p := Property(name, v);
    BagMembership(e.props);
    BagValuesAgree(e.props, name, v);
    var bag := BagProperties(e.props);
    var cs := DataElements(bag);
    assert p in bag;
    var k :| 0 <= k < |bag| && bag[k] == p;
    assert cs[k] == DataElement(p);
    forall c | c in cs
      ensures Attribute(c, "name") == Some(name) ==> Attribute(c, "value") == Some(v)
    {
      var i :| 0 <= i < |cs| && cs[i] == c;
      DataAttributes(bag[i]);
    }
  }

  /** On an event with one entry per name, every bag entry called `name` carries that name's value. */
  lemma BagValuesAgree(ps: seq<Property>, name: string, v: string)
    requires UniqueNames(ps)
    requires Lookup(ps, name) == Some(v)
    ensures forall q :: q in BagProperties(ps) && q.name == name ==> q.value == v
  {
    BagMembership(ps);
    forall q | q in BagProperties(ps) && q.name == name
      ensures q.value == v
    {
      var j :| 0 <= j < |ps| && ps[j] == q;
      UniqueLookup(ps, name, j);
    }
  }

  /** Test `Message`: the `message` child's text is the rendered message. */
  lemma Message(e: Event)
    ensures Child(Format(e), Ev("message")).Some?
    ensures Value(Child(Format(e), Ev("message")).value) == e.message
  {
    RootChildren(e);
    ValueOfTextElement(Ev("message"), map[], e.message);
  }

  /** Test `Exception`: an event with an exception gets a `throwable` child holding its text. */
  lemma Exception(e: Event)
    requires e.exception.Some?
    ensures Child(Format(e), Ev("throwable")).Some?
    ensures Value(Child(Format(e), Ev("throwable")).value) == e.exception.value
  {
    RootChildren(e);
    ValueOfTextElement(Ev("throwable"), map[], e.exception.value);
  }

  /** Without an exception there is no `throwable` child at all. */
  lemma NoExceptionNoThrowable(e: Event)
    requires e.exception.None?
    ensures Child(Format(e), Ev("throwable")) == None
  {
    RootChildren(e);
  }

  /**
    The shape every formatted event has: an `event` root in the
    log4net-events-1.2 namespace carrying all six root attributes, whose
    children are all elements of that namespace.
   */
  lemma RootShape(e: Event)
    ensures Format(e).Element? && Format(e).name == QName(Namespace, "event")
    ensures Format(e).attributes.Keys == RootAttributes
    ensures forall c :: c in Format(e).children ==> c.Element? && c.name.ns == Namespace
    ensures 3 <= |Format(e).children| <= 4
  {
    RootAttributeValues(e);
  }

  /** A well-known property the event lacks still yields its attribute, empty. */
  lemma AbsentPropertiesAreEmpty(e: Event)
    ensures Lookup(e.props, SourceContext).None? ==>
      Attribute(Format(e), "logger") == Some("") && Attribute(LocationInfo(e), "class") == Some("")
    ensures Lookup(e.props, ThreadId).None? ==> Attribute(Format(e), "thread") == Some("")
    ensures Lookup(e.props, EnvironmentUserName).None? ==> Attribute(Format(e), "username") == Some("")
    ensures Lookup(e.props, ProcessName).None? ==> Attribute(Format(e), "domain") == Some("")
    ensures Lookup(e.props, MethodName).None? ==> Attribute(LocationInfo(e), "method") == Some("")
  {
    RootAttributeValues(e);
    LocationInfoValues(e);
  }

  /**
    The bag holds a `data` child for exactly the properties without a
    dedicated place: none for a dedicated name, one for every other entry.
   */
  lemma BagIsExactlyTheRest(e: Event)
    ensures forall c :: c in PropertiesElement(e).children ==>
      exists p :: p in e.props && !IsDedicated(p.name) && c == DataElement(p)
    ensures forall p :: p in e.props && !IsDedicated(p.name) ==>
      DataElement(p) in PropertiesElement(e).children
  {
    var bag := BagProperties(e.props);
    var cs := PropertiesElement(e).children;
    BagMembership(e.props);
    forall c | c in cs
      ensures exists p :: p in e.props && !IsDedicated(p.name) && c == DataElement(p)
    {
      var i :| 0 <= i < |cs| && cs[i] == c;
      assert bag[i] in bag;
    }
    forall p | p in e.props && !IsDedicated(p.name)
      ensures DataElement(p) in cs
    {
      var i :| 0 <= i < |bag| && bag[i] == p;
      assert cs[i] == DataElement(p);
    }
  }

  /** The bag of a concatenation is the concatenation of the bags: event order is kept. */
  lemma {:induction false} BagOfConcat(ps: seq<Property>, qs: seq<Property>)
    ensures BagProperties(ps + qs) == BagProperties(ps) + BagProperties(qs)
  {
    if |ps| == 0 {
      assert ps + qs == qs;
    } else {
      assert (ps + qs)[1..] == ps[1..] + qs;
      BagOfConcat(ps[1..], qs);
    }
  }
}

=== FILE: log4net_formatter.dfy ===
/**
  The log4net text formatter: one log event becomes one `event` element in the
  log4net-events-1.2 namespace, with

    event  @logger @timestamp @level @thread @username @domain
      locationInfo  @class @method
      properties
        data @name @value      (one per property without a dedicated place)
      message                  (text: the rendered message)
      throwable                (text: the rendered exception; only with one)
 */
module Log4netFormatter {
  import opened Wrappers
  import opened Xml
  import opened LogEvents

  const Namespace: string := "http://logging.apache.org/log4net/schemas/log4net-events-1.2/"

  // Well-known property names.
  const SourceContext: string := "SourceContext"
  const ThreadId: string := "ThreadId"
  const EnvironmentUserName: string := "EnvironmentUserName"
  const ProcessName: string := "ProcessName"
  const MethodName: string := "Method"
  const MachineName: string := "MachineName"

  /** The properties that have a place of their own in the element and so stay out of `properties`. */
  predicate IsDedicated(name: string) {
    name == SourceContext || name == ThreadId || name == EnvironmentUserName
    || name == ProcessName || name == MethodName
  }

  /** The root attributes, always all present. */
  const RootAttributes: set<string> := {"logger", "timestamp", "level", "thread", "username", "domain"}

  /** A name in the log4net-events-1.2 namespace. */
  function Ev(local: string): QName {
    QName(Namespace, local)
  }

  /** The log4net name of a level. */
  function LevelName(l: Level): string {
    match l
    case Verbose => "TRACE"
    case Debug => "DEBUG"
    case Information => "INFO"
    case Warning => "WARN"
    case Error => "ERROR"
    case Fatal => "FATAL"
  }

  /** The value of a well-known property, or the empty string when the event lacks it. */
  function PropertyText(e: Event, name: string): string {
    match Lookup(e.props, name)
    case Some(v) => v
    case None => ""
  }

  /** The properties that go to the generic `properties` bag, in event order. */
  function BagProperties(ps: seq<Property>): seq<Property> {
    if |ps| == 0 then []
    else (if IsDedicated(ps[0].name) then [] else [ps[0]]) + BagProperties(ps[1..])
  }

  function DataElement(p: Property): Node {
    Element(Ev("data"), map["name" := p.name, "value" := p.value], [])
  }

  /** A `data` element carries the property's name and value. */
  lemma DataAttributes(p: Property)
    ensures Attribute(DataElement(p), "name") == Some(p.name)
    ensures Attribute(DataElement(p), "value") == Some(p.value)
  {
  }

  function DataElements(ps: seq<Property>): seq<Node> {
    seq(|ps|, i requires 0 <= i < |ps| => DataElement(ps[i]))
  }

  function LocationInfo(e: Event): Node {
    Element(Ev("locationInfo"),
      map["class" := PropertyText(e, SourceContext), "method" := PropertyText(e, MethodName)],
      [])
  }

  function PropertiesElement(e: Event): Node {
    Element(Ev("properties"), map[], DataElements(BagProperties(e.props)))
  }

  function MessageElement(e: Event): Node {
    Element(Ev("message"), map[], TextContent(e.message))
  }

  function ThrowableElements(e: Event): seq<Node> {
    match e.exception
    case Some(x) => [Element(Ev("throwable"), map[], TextContent(x))]
    case None => []
  }

  function RootAttributeMap(e: Event): map<string, string> {
    map[
      "logger" := PropertyText(e, SourceContext),
      "timestamp" := e.timestamp,
      "level" := LevelName(e.level),
      "thread" := PropertyText(e, ThreadId),
      "username" := PropertyText(e, EnvironmentUserName),
      "domain" := PropertyText(e, ProcessName)]
  }

  function RootChildNodes(e: Event): seq<Node> {
    [LocationInfo(e), PropertiesElement(e), MessageElement(e)] + ThrowableElements(e)
  }

  /** The `event` element for one log event. */
  function Format(e: Event): Node {
    Element(Ev("event"), RootAttributeMap(e), RootChildNodes(e))
  }

  /** The value each root attribute takes. */
  lemma RootAttributeValues(e: Event)
    ensures Format(e).attributes.Keys == RootAttributes
    ensures Attribute(Format(e), "logger") == Some(PropertyText(e, SourceContext))
    ensures Attribute(Format(e), "timestamp") == Some(e.timestamp)
    ensures Attribute(Format(e), "level") == Some(LevelName(e.level))
    ensures Attribute(Format(e), "thread") == Some(PropertyText(e, ThreadId))
    ensures Attribute(Format(e), "username") == Some(PropertyText(e, EnvironmentUserName))
    ensures Attribute(Format(e), "domain") == Some(PropertyText(e, ProcessName))
  {
    var m := RootAttributeMap(e);
    assert m.Keys == RootAttributes;
    assert m["logger"] == PropertyText(e, SourceContext) && m["timestamp"] == e.timestamp;
    assert m["level"] == LevelName(e.level) && m["thread"] == PropertyText(e, ThreadId);
    assert m["username"] == PropertyText(e, EnvironmentUserName) && m["domain"] == PropertyText(e, ProcessName);
  }


  /** The `class` and `method` of `locationInfo`. */
  lemma LocationInfoValues(e: Event)
    ensures Attribute(LocationInfo(e), "class") == Some(PropertyText(e, SourceContext))
    ensures Attribute(LocationInfo(e), "method") == Some(PropertyText(e, MethodName))
  {
  }

  /** Where each direct child of the root is found, as `Root.Element(...)` would find it. */
  lemma RootChildren(e: Event)
    ensures Child(Format(e), Ev("locationInfo")) == Some(LocationInfo(e))
    ensures Child(Format(e), Ev("properties")) == Some(PropertiesElement(e))
    ensures Child(Format(e), Ev("message")) == Some(MessageElement(e))
    ensures e.exception.Some? ==>
      Child(Format(e), Ev("throwable")) == Some(Element(Ev("throwable"), map[], TextContent(e.exception.value)))
    ensures e.exception.None? ==> Child(Format(e), Ev("throwable")) == None
  {
    FixedChildren(e);
    ThrowableChild(e);
  }

  /** The three children every event has sit first, in this order. */
  lemma FixedChildren(e: Event)
    ensures Child(Format(e), Ev("locationInfo")) == Some(LocationInfo(e))
    ensures Child(Format(e), Ev("properties")) == Some(PropertiesElement(e))
    ensures Child(Format(e), Ev("message")) == Some(MessageElement(e))
  {
    var cs := RootChildNodes(e);
    assert !IsNamed(cs[0], Ev("properties")) && !IsNamed(cs[0], Ev("message"));
    assert !IsNamed(cs[1], Ev("message"));
    FirstIndexNamedIs(cs, Ev("locationInfo"), 0);
    FirstIndexNamedIs(cs, Ev("properties"), 1);
    FirstIndexNamedIs(cs, Ev("message"), 2);
  }

  /** The `throwable` child follows them exactly when the event has an exception. */
  lemma ThrowableChild(e: Event)
    ensures e.exception.Some? ==>
      Child(Format(e), Ev("throwable")) == Some(Element(Ev("throwable"), map[], TextContent(e.exception.value)))
    ensures e.exception.None? ==> Child(Format(e), Ev("throwable")) == None
  {
    var cs := RootChildNodes(e);
    assert forall j :: 0 <= j < 3 ==> !IsNamed(cs[j], Ev("throwable"));
    if e.exception.Some? {
      FirstIndexNamedIs(cs, Ev("throwable"), 3);
    } else {
      assert |cs| == 3;
    }
  }


  /** The bag holds exactly the event's properties that have no dedicated place. */
  lemma {:induction false} BagMembership(ps: seq<Property>)
    ensures forall p :: p in BagProperties(ps) <==> p in ps && !IsDedicated(p.name)
  {
    if |ps| > 0 {
      BagMembership(ps[1..]);
      assert ps == [ps[0]] + ps[1..];
    }
  }
}

=== FILE: log4net_reader.dfy ===
/**
  A reader for the log4net-events-1.2 `event` element, the way a log4net
  collector consumes it. It serves as the independent partner of the
  formatter: reading back a formatted event recovers everything the element
  is meant to carry.
 */
module Log4netReader {
  import opened Wrappers
  import opened Xml
  import opened LogEvents
  import opened Log4netFormatter

  /** What a collector learns from one `event` element. */
  datatype Record = Record(
    logger: string,
    timestamp: string,
    level: Level,
    thread: string,
    username: string,
    domain: string,
    className: string,
    methodName: string,
    data: seq<Property>,
    message: string,
    throwable: Option<string>)

  /** The level a log4net level name stands for. */
  function ParseLevel(s: string): Option<Level> {
    if s == "TRACE" then Some(Verbose)
    else if s == "DEBUG" then Some(Debug)
    else if s == "INFO" then Some(Information)
    else if s == "WARN" then Some(Warning)
    else if s == "ERROR" then Some(Error)
    else if s == "FATAL" then Some(Fatal)
    else None
  }

  /** The name/value pairs of a sequence of `data` elements; fails on anything else. */
  function ReadData(cs: seq<Node>): Option<seq<Property>> {
    if |cs| == 0 then Some([])
    else if !IsNamed(cs[0], Ev("data")) then None
    else
      var name :- Attribute(cs[0], "name");
      var value :- Attribute(cs[0], "value");
      var rest :- ReadData(cs[1..]);
      Some([Property(name, value)] + rest)
  }

  /** The six root attributes: logger, timestamp, level, thread, username, domain. */
  datatype Header = Header(
    logger: string, timestamp: string, level: Level, thread: string, username: string, domain: string)

  function ReadHeader(n: Node): Option<Header> {
    var logger :- Attribute(n, "logger");
    var timestamp :- Attribute(n, "timestamp");
    var levelName :- Attribute(n, "level");
    var level :- ParseLevel(levelName);
    var thread :- Attribute(n, "thread");
    var username :- Attribute(n, "username");
    var domain :- Attribute(n, "domain");
    Some(Header(logger, timestamp, level, thread, username, domain))
  }

  /** The `class` and `method` of the `locationInfo` child. */
  function ReadLocation(n: Node): Option<(string, string)> {
    var location :- Child(n, Ev("locationInfo"));
    var className :- Attribute(location, "class");
    var methodName :- Attribute(location, "method");
    Some((className, methodName))
  }

  /** The text of the `throwable` child, if there is one. */
  function ReadThrowable(n: Node): Option<string> {
    match Child(n, Ev("throwable"))
    case None => None
    case Some(t) => Some(Value(t))
  }

  function Read(n: Node): Option<Record> {
    if !IsNamed(n, Ev("event")) then None
    else
      var h :- ReadHeader(n);
      var location :- ReadLocation(n);
      var properties :- Child(n, Ev("properties"));
      var data :- ReadData(properties.children);
      var message :- Child(n, Ev("message"));
      Some(Record(h.logger, h.timestamp, h.level, h.thread, h.username, h.domain,
                  location.0, location.1, data, Value(message), ReadThrowable(n)))
  }

  /** The record a formatted event should read back as. */
  function Expected(e: Event): Record {
    Record(
      PropertyText(e, SourceContext), e.timestamp, e.level,
      PropertyText(e, ThreadId), PropertyText(e, EnvironmentUserName), PropertyText(e, ProcessName),
      PropertyText(e, SourceContext), PropertyText(e, MethodName),
      BagProperties(e.props), e.message, e.exception)
  }

  /** The level table is a bijection onto the six log4net names: each name parses back to its level. */
  lemma LevelNameRoundTrip(l: Level)
    ensures ParseLevel(LevelName(l)) == Some(l)
  {
  }

  /** Only the six log4net names parse, each to the level whose name it is. */
  lemma ParseLevelOnlyNames(s: string, l: Level)
    ensures ParseLevel(s) == Some(l) <==> LevelName(l) == s
  {
  }

  /** Reading back the `data` elements of a property list yields that list. */
  lemma {:induction false} ReadDataRoundTrip(ps: seq<Property>)
    ensures ReadData(DataElements(ps)) == Some(ps)
  {
    var cs := DataElements(ps);
    if |ps| > 0 {
      assert cs[1..] == DataElements(ps[1..]);
      ReadDataRoundTrip(ps[1..]);
      assert ps == [ps[0]] + ps[1..];
    }
  }

  /** Reading a formatted event recovers its record. */
  lemma ReadFormat(e: Event)
    ensures Read(Format(e)) == Some(Expected(e))
  {
    var n := Format(e);
    RootChildren(e);
    ReadHeaderOfFormat(e);
    LocationInfoValues(e);
    ReadDataRoundTrip(BagProperties(e.props));
    ValueOfTextElement(Ev("message"), map[], e.message);
    assert ReadLocation(n) == Some((PropertyText(e, SourceContext), PropertyText(e, MethodName)));
    if e.exception.Some? {
      ValueOfTextElement(Ev("throwable"), map[], e.exception.value);
    }
    assert ReadThrowable(n) == e.exception;
  }

  lemma ReadHeaderOfFormat(e: Event)
    ensures ReadHeader(Format(e)) == Some(Header(
      PropertyText(e, SourceContext), e.timestamp, e.level,
      PropertyText(e, ThreadId), PropertyText(e, EnvironmentUserName), PropertyText(e, ProcessName)))
  {
    RootAttributeValues(e);
    LevelNameRoundTrip(e.level);
  }

  /** Two events format to the same element exactly when they carry the same record. */
  lemma FormatDeterminedByRecord(e1: Event, e2: Event)
    ensures Format(e1) == Format(e2) <==> Expected(e1) == Expected(e2)
  {
    ReadFormat(e1);
    ReadFormat(e2);
    if Expected(e1) == Expected(e2) {
      assert PropertyText(e1, SourceContext) == PropertyText(e2, SourceContext);
      assert RootAttributeMap(e1) == RootAttributeMap(e2);
      assert LocationInfo(e1) == LocationInfo(e2);
      assert PropertiesElement(e1) == PropertiesElement(e2);
    }
  }
}

=== FILE: log_events.dfy ===
/**
  The structured log event the formatter reads: a level, an opaque rendered
  timestamp, the rendered message, an optional rendered exception and the
  event's named properties. The properties are kept as an ordered list of
  name/value pairs in insertion order. That order is a modelling choice: .NET
  documents a dictionary's enumeration order as undefined, and insertion
  order is only what its implementation yields when entries are added or
  overwritten but never removed.
 */
module LogEvents {
  import opened Wrappers

  /** The six severities of a log event, from least to most severe. */
  datatype Level = Verbose | Debug | Information | Warning | Error | Fatal

  /** A named property whose scalar value is already rendered as text. */
  datatype Property = Property(name: string, value: string)

  datatype Event = Event(
    timestamp: string,
    level: Level,
    message: string,
    exception: Option<string>,
    props: seq<Property>)

  /** No two properties share a name, as in the event's property dictionary. */
  predicate UniqueNames(ps: seq<Property>) {
    forall i, j :: 0 <= i < j < |ps| ==> ps[i].name != ps[j].name
  }

  /** The position of the first property called `name`. */
  function IndexOf(ps: seq<Property>, name: string): (r: Option<nat>)
    ensures r.Some? ==> r.value < |ps| && ps[r.value].name == name
    ensures r.Some? ==> forall j :: 0 <= j < r.value ==> ps[j].name != name
    ensures r.None? ==> forall j :: 0 <= j < |ps| ==> ps[j].name != name
  {
    if |ps| == 0 then None
    else if ps[0].name == name then Some(0)
    else match IndexOf(ps[1..], name)
      case None => None
      case Some(k) => Some(k + 1)
  }

  /** The value of the property called `name`, if the event has one. */
  function Lookup(ps: seq<Property>, name: string): (r: Option<string>)
    ensures r.None? <==> forall j :: 0 <= j < |ps| ==> ps[j].name != name
    ensures r.Some? ==> Property(name, r.value) in ps
  {
    match IndexOf(ps, name)
    case None => None
    case Some(i) => Some(ps[i].value)
  }

  /**
    Adds a property, or overwrites the value of the existing property with
    the same name in place (`LogEvent.AddOrUpdateProperty`).
   */
  function SetProperty(ps: seq<Property>, p: Property): seq<Property> {
    match IndexOf(ps, p.name)
    case Some(i) => ps[i := p]
    case None => ps + [p]
  }

  function AddOrUpdateProperty(e: Event, name: string, value: string): Event {
    e.(props := SetProperty(e.props, Property(name, value)))
  }

  /** After setting `p`, looking up its name finds the new value. */
  lemma LookupAfterSet(ps: seq<Property>, p: Property)
    ensures Lookup(SetProperty(ps, p), p.name) == Some(p.value)
  {
    var qs := SetProperty(ps, p);
    match IndexOf(ps, p.name)
    case Some(i) =>
      assert qs[i] == p;
      assert forall j :: 0 <= j < i ==> qs[j] == ps[j];
      IndexOfIsFirst(qs, p.name, i);
    case None =>
      assert qs[|ps|] == p;
      assert forall j :: 0 <= j < |ps| ==> qs[j] == ps[j];
      IndexOfIsFirst(qs, p.name, |ps|);
  }

  /** Setting `p` leaves every other name's lookup as it was. */
  lemma LookupOtherAfterSet(ps: seq<Property>, p: Property, name: string)
    requires name != p.name
    ensures Lookup(SetProperty(ps, p), name) == Lookup(ps, name)
  {
    var qs := SetProperty(ps, p);
    assert |qs| >= |ps|;
    assert forall j :: 0 <= j < |ps| ==> (qs[j].name == name <==> ps[j].name == name);
    assert forall j :: |ps| <= j < |qs| ==> qs[j].name != name;
    match IndexOf(ps, name)
    case Some(i) =>
      IndexOfIsFirst(qs, name, i);
      assert qs[i] == ps[i];
    case None =>
  }

  /**
    Setting a property keeps every other entry at its position: an existing
    entry of that name is overwritten where it stands, and otherwise the new
    entry goes at the end.
   */
  lemma SetKeepsOrder(ps: seq<Property>, p: Property)
    ensures |SetProperty(ps, p)| == if Lookup(ps, p.name).Some? then |ps| else |ps| + 1
    ensures forall j :: 0 <= j < |ps| && ps[j].name != p.name ==> SetProperty(ps, p)[j] == ps[j]
    ensures Lookup(ps, p.name).None? ==> SetProperty(ps, p)[|ps|] == p
    ensures Lookup(ps, p.name).Some? ==>
      exists i :: 0 <= i < |ps| && ps[i].name == p.name && SetProperty(ps, p) == ps[i := p]
  {
    match IndexOf(ps, p.name)
    case Some(i) =>
      assert SetProperty(ps, p)[i] == p;
    case None =>
  }

  /** Setting a property never introduces a duplicate name. */
  lemma SetKeepsUniqueNames(ps: seq<Property>, p: Property)
    requires UniqueNames(ps)
    ensures UniqueNames(SetProperty(ps, p))
  {
    var qs := SetProperty(ps, p);
    match IndexOf(ps, p.name)
    case Some(i) =>
      forall a, b | 0 <= a < b < |qs|
        ensures qs[a].name != qs[b].name
      {
        if a != i && b != i {
          assert qs[a] == ps[a] && qs[b] == ps[b];
        } else if a == i {
          assert qs[b] == ps[b];
        } else {
          assert qs[a] == ps[a];
        }
      }
    case None =>
  }

  /** A property list has one entry per name, so the entry for `name` is unique. */
  lemma UniqueLookup(ps: seq<Property>, name: string, j: nat)
    requires UniqueNames(ps)
    requires j < |ps| && ps[j].name == name
    ensures Lookup(ps, name) == Some(ps[j].value)
  {
    IndexOfIsFirst(ps, name, j);
  }

  /** Any position holding `name` with no earlier occurrence is what `IndexOf` finds. */
  lemma IndexOfIsFirst(ps: seq<Property>, name: string, i: nat)
    requires i < |ps| && ps[i].name == name
    requires forall j :: 0 <= j < i ==> ps[j].name != name
    ensures IndexOf(ps, name) == Some(i)
  {
  }
}

=== FILE: wrappers.dfy ===
/** An optional value: what a lookup returns when it may find nothing. */
module Wrappers {

  datatype Option<+T> = None | Some(value: T) {

    // The three members below let `:-` stop a computation at the first `None`.

    predicate IsFailure() {
      None?
    }

    function PropagateFailure<U>(): Option<U>
      requires None?
    {
      None
    }

    function Extract(): T
      requires Some?
    {
      value
    }
  }
}

=== FILE: xml.dfy ===
/**
  An abstract XML tree: elements with an expanded name, an attribute map and
  ordered children, and text nodes. It stands for the element as the
  formatter writes it (before any serialisation or re-parsing), and offers
  the few LINQ to XML queries a consumer of that element uses (`Attribute`,
  `Element`, `Value`).
 */
module Xml {
  import opened Wrappers

  /** An expanded name: namespace URI plus local name. */
  datatype QName = QName(ns: string, local: string)

  datatype Node =
    | Element(name: QName, attributes: map<string, string>, children: seq<Node>)
    | Text(content: string)

  predicate IsNamed(n: Node, name: QName) {
    n.Element? && n.name == name
  }

  /** The value of the unqualified attribute `name` of `n`, if `n` is an element carrying it. */
  function Attribute(n: Node, name: string): Option<string> {
    if n.Element? && name in n.attributes then Some(n.attributes[name]) else None
  }

  /** The position of the first node of `cs` that is an element called `name`. */
  function FirstIndexNamed(cs: seq<Node>, name: QName): (r: Option<nat>)
    ensures r.Some? ==> r.value < |cs| && IsNamed(cs[r.value], name)
    ensures r.Some? ==> forall j :: 0 <= j < r.value ==> !IsNamed(cs[j], name)
    ensures r.None? ==> forall j :: 0 <= j < |cs| ==> !IsNamed(cs[j], name)
  {
    if |cs| == 0 then None
    else if IsNamed(cs[0], name) then Some(0)
    else match FirstIndexNamed(cs[1..], name)
      case None => None
      case Some(k) => Some(k + 1)
  }

  /** Any element called `name` with no earlier one is what `FirstIndexNamed` finds. */
  lemma FirstIndexNamedIs(cs: seq<Node>, name: QName, i: nat)
    requires i < |cs| && IsNamed(cs[i], name)
    requires forall j :: 0 <= j < i ==> !IsNamed(cs[j], name)
    ensures FirstIndexNamed(cs, name) == Some(i)
  {
  }

  /** The first child element of `n` called `name`, as `XContainer.Element` finds it. */
  function Child(n: Node, name: QName): (r: Option<Node>)
    ensures r.Some? ==> n.Element? && IsNamed(r.value, name) && r.value in n.children
    ensures r.Some? ==>
      exists i :: 0 <= i < |n.children| && n.children[i] == r.value &&
        forall j :: 0 <= j < i ==> !IsNamed(n.children[j], name)
    ensures r.None? ==> !n.Element? || forall c :: c in n.children ==> !IsNamed(c, name)
  {
    if !n.Element? then None
    else match FirstIndexNamed(n.children, name)
      case None => None
      case Some(i) => Some(n.children[i])
  }

  /** Follows `path` from `n`, one `Child` step per name. */
  function Descend(n: Node, path: seq<QName>): Option<Node>
    decreases |path|
  {
    if |path| == 0 then Some(n)
    else match Child(n, path[0])
      case None => None
      case Some(c) => Descend(c, path[1..])
  }

  /** The concatenated text of all descendants of `n`, as `XElement.Value` reads it. */
  function Value(n: Node): string
    decreases n
  {
    match n
    case Text(s) => s
    case Element(_, _, cs) => ValueOfAll(cs)
  }

  function ValueOfAll(cs: seq<Node>): string
    decreases cs
  {
    if |cs| == 0 then "" else Value(cs[0]) + ValueOfAll(cs[1..])
  }

  /** The children written for a string of text: none at all for the empty string. */
  function TextContent(s: string): seq<Node> {
    if s == "" then [] else [Text(s)]
  }

  /** An element whose content is written from `s` reads back `s`. */
  lemma ValueOfTextElement(name: QName, attributes: map<string, string>, s: string)
    ensures Value(Element(name, attributes, TextContent(s))) == s
  {
    if s != "" {
      var cs := [Text(s)];
      assert cs[1..] == [];
      assert ValueOfAll(cs) == Value(cs[0]) + ValueOfAll(cs[1..]) == s + "";
      assert s + "" == s;
    }
  }

  /** The text of a run of siblings is the text of its parts, in order. */
  lemma {:induction false} ValueOfAllConcat(cs: seq<Node>, ds: seq<Node>)
    ensures ValueOfAll(cs + ds) == ValueOfAll(cs) + ValueOfAll(ds)
  {
    if |cs| == 0 {
      assert cs + ds == ds;
    } else {
      assert (cs + ds)[0] == cs[0];
      assert (cs + ds)[1..] == cs[1..] + ds;
      ValueOfAllConcat(cs[1..], ds);
    }
  }
}
